=== FILE: README.md ===
# Rabbit Garden rules in Dafny

A model of the discrete game rules of Rabbit Garden, a turn-based farming game built on
the Bevy engine. The player places crops and fences on a tile map, and rabbits advance
across the garden toward column 0. The model lifts each rule out of the engine's
entity-component plumbing. Each rule becomes a pure function over plain datatypes:

- **Turn structure** (`turn_structure.dfy`, module `TurnStructure`). The turn-state
  enum and the update that moves through it. The update passes through the outer
  phases automatically and toggles between the player turn and the pest turn on
  Space.
- **Rabbits** (`pests.dfy`, module `PestRules`). The movement pass, where each rabbit
  moves at most one cell toward x = 0 and stays at x = 0 or when a fence blocks the
  cell ahead, and the round-setup spawn of four rabbits in column 15.
- **Plants** (`plants.dfy`, module `PlantRules`). The end-of-round countdown and the
  cleanup of plants whose counter has run out.
- **Scoring** (`scoring.dfy`, module `Scoring`). The round tally of the plants that
  reached zero, and the prize band of a prize-plant score.
- **Placement** (`main_ui.dfy`, module `MainUi`). The placable tiles and what each
  sets on the map, the five-entry tile queue, and the click that places the queue's
  head.
- **Schedule** (`game.dfy`, module `Game`). Which rule runs on which turn change, as
  each plugin registers them, the menu and play modes, and a frame. A frame runs every
  system scheduled in the current state: the turn update and Escape in play, the
  placement click in the player's turn, the Play button in the menu, and then the
  systems of any turn change.

Supporting modules: `Wrappers` (Option, Result), `Grid` (tile positions and layers),
`Input` (keyboard and mouse events) and `TileMap`. `TileMap` holds the board: the
fenced cells, the plants and the rabbit positions.

The source files do not agree with each other in places. The
model resolves each disagreement as follows:

- There is one turn enum with a single `PestTurn`. `place_tile` sets a `PestTurnA`
  that the enum does not declare, and the model reads it as `PestTurn`.
- `score` reads a value out of the plant component, but the plant component declares
  none. A `Plant` therefore has `value: Option<nat>`. Plants placed from the queue
  have no value, so they never add to a round score (`MainUi.PlacedCropScoresNothing`).
- `MAP_SIZE` is not defined in any file cited here, so it is a parameter (`mapSize`).
- `lib.rs` declares no `main_ui`, `plants` or `scoring` module, and adds no
  `MainUiPlugin`, `PlantPlugin` or `ScoringPlugin`. As shown, its app would run no
  placement, no maturity countdown and no scoring. The model assumes a build that
  adds all three plugins next to the ones `lib.rs` adds. `Game` and the finding
  below rest on that assumption.

Some consequences of the cited files are easy to miss:

- A prize score above 10 selects the second prize, as 6 to 9 do.
- A click is accepted only when `1 < x < mapSize - 2`, and the same for y, which
  leaves a two-cell margin on every side.
- Placement does not check whether the cell is already occupied.
- Rabbits keep no state between passes. Each pass moves a rabbit at most one cell
  toward x = 0. A rabbit stays when it is at x = 0 or a fence blocks the cell ahead.
- The turn update never enters `EndOfRound` or `RoundCleanup`, and never leaves them.
  `Game.RoundsNeverEnd` follows from this: from any other phase, no sequence of frames
  reaches them, so no plant is ever decremented, scored or cleared.
- The turn state is set to `Idle` once, when the app is built, and is never reset.
  Leaving play and pressing Play again resumes the turn where it was.

Randomness is passed in as parameters. A spawn takes a stream of drawn rows, and a
click or a queue setup takes the drawn placable. Each frame sees at most one input
event.

## Model

| member | source | states |
|---|---|---|
| TurnStructure.ProgressTurn | game_plugin/src/turn_structure.rs:33-55 | Idle, RoundSetup and StartOfRound go to RoundSetup, StartOfRound and PlayerTurn whatever the input. PlayerTurn goes to PestTurn, and PestTurn back to PlayerTurn, exactly when the event is a Space press. Any other event, a release or no event leaves the state unchanged. EndOfRound and RoundCleanup are never left. |
| TurnStructure.StartReachesPlayerTurn | game_plugin/src/turn_structure.rs:25-41 | The initial state is Idle, and any three updates from it reach PlayerTurn. |
| TurnStructure.InnerRunFollowsParity | game_plugin/src/turn_structure.rs:42-52 | From PlayerTurn or PestTurn, a run of updates ends in the start phase after an even number of Space presses and in the other phase after an odd number. |
| TurnStructure.NeverEntersRoundEnd | game_plugin/src/turn_structure.rs:38-52 | From any phase other than EndOfRound and RoundCleanup, no input sequence reaches either of them. |
| TurnStructure.RoundEndIsAbsorbing | game_plugin/src/turn_structure.rs:42-52 | From EndOfRound or RoundCleanup, every input sequence leaves the state where it was. |
| TurnStructure.SettlesIntoInnerPhases | game_plugin/src/turn_structure.rs:25-52 | From the initial state, after three or more updates the state is PlayerTurn or PestTurn. |
| TurnStructure.RunAppend | game_plugin/src/turn_structure.rs:33-55 | Running two input sequences one after the other equals running their concatenation. |
| PestRules.StepRabbit | game_plugin/src/pests.rs:30-42 | A rabbit at x = 0 stays. A rabbit with x > 0 ends at (x-1, y) exactly when no fence is there, and otherwise stays. y never changes, x drops by at most 1, and a moving rabbit never lands on a fence. |
| PestRules.Movement | game_plugin/src/pests.rs:26-44 | One pass keeps the number of rabbits. Each rabbit keeps its row, loses at most one column, and loses one exactly when it is off column 0 and the cell ahead has no fence. A rabbit that moved is not on a fence. Only the fence set is consulted. |
| PestRules.RabbitMovement | game_plugin/src/pests.rs:26-44 | Updating the rabbits in place one at a time, in any order that visits each exactly once, gives the same pass: no rabbit's result depends on iteration order. |
| PestRules.UnfencedPasses | game_plugin/src/pests.rs:31-39 | With no fences, k passes move each rabbit from x to max(x - k, 0) and leave its row alone. |
| PestRules.FirstFreeDraw | game_plugin/src/pests.rs:52-59 | The reroll finds the first drawn row whose spawn-column cell has no fence, and every earlier draw was fenced. With no such row, every draw was fenced. |
| PestRules.FreeRowsAtFirstFree | game_plugin/src/pests.rs:52-59 | The unfenced rows of a draw stream start with the row the reroll lands on, and continue with the unfenced rows after it. |
| PestRules.SpawnFrom | game_plugin/src/pests.rs:51-72 | Spawning n rabbits succeeds exactly when the stream holds at least n unfenced rows. The rabbits then stand in column 15 on the first n unfenced rows, in draw order. |
| PestRules.SpawnRabbits | game_plugin/src/pests.rs:46-73 | A spawn succeeds exactly when the draws hold at least four unfenced rows, and then makes exactly 4 rabbits. Each has x = 15, a row from 0 to 14, and no fence on its cell. |
| PestRules.FreeRowsSound | game_plugin/src/pests.rs:52-59 | Every row the reroll can accept was drawn, and its spawn-column cell holds no fence. |
| PlantRules.IncrementMaturity | game_plugin/src/plants.rs:25-31 | Every plant's counter drops by exactly one with no lower bound, so counters go negative. Position and value are kept, and the number of plants is unchanged. |
| PlantRules.IncrementMaturityAppend | game_plugin/src/plants.rs:28-30 | The decrement treats each plant on its own. |
| PlantRules.DespawnMature | game_plugin/src/plants.rs:33-49 | Cleanup never grows the plant list, and no plant it keeps has a counter of 0 or below. |
| PlantRules.DespawnMatureCounts | game_plugin/src/plants.rs:38-47 | A plant remains after cleanup exactly when it was present with counter > 0. Each survivor keeps its counter and position, as often as it occurred. |
| PlantRules.DespawnMatureIdempotent | game_plugin/src/plants.rs:38-47 | Cleanup twice equals cleanup once. |
| PlantRules.DespawnMatureAppend | game_plugin/src/plants.rs:38-47 | Cleanup treats each plant on its own. |
| PlantRules.RoundAppend | game_plugin/src/plants.rs:12-21 | One round (decrement, then cleanup) treats each plant on its own. |
| PlantRules.RoundsAppend | game_plugin/src/plants.rs:12-21 | Any number of rounds treats each plant on its own. |
| PlantRules.Lifecycle | game_plugin/src/plants.rs:15-20 | With one decrement and then one cleanup per round, a plant with counter n survives the first k < n rounds with counter n - k. It is gone after round max(n, 1). |
| PlantRules.RoundsLeaveAged | game_plugin/src/plants.rs:12-49 | After k >= 1 rounds, exactly the plants whose counter was above k remain, in their original order, each with its counter lowered by k and its position and value kept. |
| Scoring.ValueWithCounterAppend | game_plugin/src/scoring.rs:41-46 | The tally over concatenated plant lists is the sum of the tallies. |
| Scoring.Score | game_plugin/src/scoring.rs:38-48 | The round score, summed plant by plant, is the total value of the plants whose counter is exactly 0. It is returned for reporting and not stored. |
| Scoring.ValueWithCounterZero | game_plugin/src/scoring.rs:41-46 | The tally is zero exactly when every plant with the tallied counter has no value. Plants with any other counter, positive or negative, never contribute. |
| Scoring.ScoreAfterDecrement | game_plugin/src/scoring.rs:19-22 | Scoring after the decrement counts the plants whose counter was 1 when the round ended, which are the plants that reach 0 this round. |
| Scoring.PrizeBand | game_plugin/src/scoring.rs:72-96 | Score 0 gives no prize and exactly 10 the first prize. Any other score above 5, above 10 included, gives the second prize, and 1 to 5 the third. |
| MainUi.SpecOf | game_plugin/src/main_ui.rs:85-120 | Carrot and Pumpkin go on the Plants layer with a positive maturity counter. Fence goes on the Fences layer with none. |
| MainUi.PlaceOnMap | game_plugin/src/main_ui.rs:85-120 | A fence adds its cell to the Fences layer and leaves plants alone. A crop appends a plant with its starting counter and no value, and leaves fences alone. Rabbits are never touched. |
| MainUi.PlacedCropLifecycle | game_plugin/src/main_ui.rs:104-114 | A placed crop with starting counter n stays, counting down, for the first k < n rounds, and is gone from round n on. Carrot has n = 1 and Pumpkin n = 4. The other plants' rounds are unaffected. |
| MainUi.PlacedCropScoresNothing | game_plugin/src/main_ui.rs:104-114 | A placed crop carries no value, so it never changes a round tally. |
| MainUi.SetupQueue | game_plugin/src/main_ui.rs:126-138 | The set-up queue holds exactly 5 entries, each a drawn Carrot, Pumpkin or Fence, in draw order. |
| MainUi.CleanupQueue | game_plugin/src/main_ui.rs:140-149 | Leaving play empties the queue, whatever it held. |
| MainUi.PlaceTile | game_plugin/src/main_ui.rs:202-239 | Only a left release over a cell with 1 < x < mapSize-2 and 1 < y < mapSize-2, during the player's turn, does anything. Every other event leaves queue, map and turn unchanged. An accepted click keeps the queue length: the head is removed, the rest shift forward and the drawn tile is appended. If the head resolves, it is placed at the clicked cell and the turn goes to the pest turn. If not, nothing is placed and the turn stays. On an empty queue the click panics. |
| MainUi.QueueStaysFull | game_plugin/src/main_ui.rs:225-234 | From a non-empty queue, any series of clicks never panics and keeps the queue length. If every entry resolved at the start, every entry still does. |
| Game.ExitRoundSetup | game_plugin/src/pests.rs:15-18 | Leaving round setup succeeds exactly when the draws hold at least four unfenced rows. It then appends exactly 4 rabbits in column 15, on rows 0 to 14 and unfenced cells. The existing rabbits, fences and plants are unchanged. |
| Game.EnterPestTurn | game_plugin/src/pests.rs:19-22 | Entering the pest turn moves each rabbit by the step rule. The rabbit count, fences and plants are unchanged. |
| Game.EnterEndOfRound | game_plugin/src/scoring.rs:19-22 | Entering end of round decrements every plant and then scores. The reported score is the value of the plants whose counter was 1 before the round ended. |
| Game.EnterRoundCleanup | game_plugin/src/plants.rs:18-21 | Entering round cleanup removes the mature plants, and fences and rabbits are unchanged. |
| Game.EndOfRoundThenCleanup | game_plugin/src/plants.rs:12-21 | The end-of-round decrement followed by the cleanup is one round of plant maturity. |
| Game.OnTransition | game_plugin/src/pests.rs:13-23 | No turn change runs no system. Leaving round setup for the start of round is exactly the spawn. From anywhere but round setup, entering the pest turn is exactly the movement pass, entering end of round the decrement and score, and entering cleanup the cleanup. Every other change of turn leaves the board as it was. Only leaving round setup can get stuck. Plants change only on entering EndOfRound or RoundCleanup. |
| Game.StartSession | game_plugin/src/loading.rs:12 | After loading, the game is in the menu, the turn is Idle, the queue is empty and the map is empty. |
| Game.Step | game_plugin/src/main_ui.rs:31-43 | In the menu a keyboard frame changes nothing, and so does a mouse event that is not a left release. A left release presses Play: play resumes with five fresh tiles and the turn and map as they were. In play a keyboard frame moves the turn by the turn update, and returns to the menu exactly on Escape, emptying the queue. A mouse frame in an automatic phase advances it as the turn update does with no key. In the player's turn a mouse frame fails exactly when placement panics, and otherwise takes placement's turn and queue. In the pest turn and the end-of-round phases a mouse frame changes nothing. A keyboard frame, and a mouse frame in an automatic phase, succeed exactly when the turn change's systems do. In play the board is what the turn change's systems leave: they run on the board before the frame, or in the player's turn on the board placement leaves. Running out of spawn draws happens only when leaving round setup in play. No frame panics while play has a non-empty queue, and that is kept. Outside the end-of-round phases a frame never enters them and only appends plants. It is the shared frame `Game.Advance` with `placeOnlyInPlay` true. |
| Game.StepAsWritten | game_plugin/src/main_ui.rs:40-43 | Placement is scheduled on the player's turn alone, so it also runs in the menu. In the menu, in the player's turn with an empty queue, an accepted click panics. Every frame in play, and every menu frame other than an accepted click in the player's turn, is the same as in `Game.Step`. It is the shared frame `Game.Advance` with `placeOnlyInPlay` false. |
| Game.MenuClickPanics | game_plugin/src/main_ui.rs:191-198 | In the player's turn, Escape and then a Play click over an interior tile panics under the schedule as written. With placement confined to play, the same frames resume play with a fresh queue. |
| Game.PlayNeverPanics | game_plugin/src/main_ui.rs:225-226 | With placement confined to play, from any session whose queue is ready in play, the start included, no series of frames ends in a panic. |
| Game.RoundsNeverEnd | game_plugin/src/turn_structure.rs:38-52 | From outside the end-of-round phases, no series of frames ever reaches them. Every plant present stays unchanged at the front of the plant list. |

## Findings

| source | as written | input that shows it | evidently intended | confidence | as-written member | corrected member |
|---|---|---|---|---|---|---|
| game_plugin/src/main_ui.rs:40-43 | `place_tile` is scheduled on the player's turn alone, not on play. Leaving play runs `cleanup_queue`, and the turn is kept. | In the player's turn press Escape, then click Play with the cursor over an interior tile: `queue.0.remove(0)` runs on the emptied queue. | Placement runs only while the game is in play, where the queue always holds five entries. | medium, not executed | Game.MenuClickPanics | Game.PlayNeverPanics |

## Left out

- Sprites, overlays, texture handles and `notify_chunk_for_tile` are presentation
  only. The prize band is an enum result instead of a spawned sprite.
- `arrange_placables` transforms, the cursor-to-tile float conversion and the 2-second
  prize-screen timer are floating-point presentation. The clicked tile is an integer
  input, and it is absent when the map transform is not found.
- `thread_rng` is replaced by explicit parameters. The spawn rows are a stream of
  values from 0 to 14, and queue draws are given placables.
- `PestRules.SpawnRabbits`: the reroll loop has no termination guarantee. The model
  consumes a finite draw stream and returns None when the stream runs out first.
- Each update sees at most one input event. Several events in one frame and the
  engine's deferral of `State::set` are not modelled. A second state change queued in
  the same frame is one of the things left out.
- `MapQuery::set_tile` and `despawn_tile` are library behaviour that is not visible
  here. Overwriting an occupied cell, an out-of-map `set_tile` failure, and despawning
  by position are all left out. A placed crop is appended to the plant list and a
  placed fence is added to the fenced cells.
- Two spawned rabbits may draw the same row. The model keeps four entries and does not
  model what the Pests layer does with the shared cell.
- Machine integers are unbounded. The signed 32-bit counter never overflows, the
  unsigned 32-bit score sum never overflows, and tile positions have no upper bound.
- The overlay spawn and despawn are presentation. Nothing in the cited files enters
  prize-plant scoring or writes the prize score, so only the banding decision is
  modelled.
- The Play button is a left release anywhere in the menu, because the button fills
  the central panel. Pointer hover and the press that precedes the release are not
  modelled.
- Re-entering play rebuilds the tile map. What that does to the map-transform lookup
  is not modelled: the clicked tile is an input of each frame.
- Game.Step: placement is confined to play. This is the corrected schedule, and
  `Game.StepAsWritten` models the schedule as written.
- Asset declarations, tilemap and camera construction, the menu's layout and the
  music build script contain no game rule. Which plugins are added is not modelled
  as a choice: the model assumes the build described above.
- Bevy keeps unread events for one more frame. `progress_turn` reads no keyboard
  event in Idle, RoundSetup or StartOfRound, and `place_tile` runs only in the
  player's turn. So a Space pressed on the StartOfRound frame is read on the next,
  PlayerTurn, frame, and a click made in the pest turn is read once the turn is back
  to the player's. The model drops such events: unread events from one frame are not
  carried over to the next.

=== FILE: game.dfy ===
/**
 * The plugins' schedule: which rule runs when the turn state changes, the menu and
 * play modes, and a frame that runs every system scheduled in the current state.
 */
module Game {
  import opened Wrappers
  import opened Grid
  import opened Input
  import opened TurnStructure
  import opened PlantRules
  import opened TileMap
  import opened PestRules
  import opened Scoring
  import opened MainUi

  /** Spawn rows drawn by the generator: each lies in 0 to 14. */
  predicate ValidDraws(draws: seq<nat>) {
    forall j :: 0 <= j < |draws| ==> draws[j] < SpawnRows
  }

  /**
   * Leaving round setup spawns four rabbits onto the Pests layer, each on an
   * unfenced cell of the spawn column; nothing else changes. None exactly when the
   * draws hold fewer than four unfenced rows.
   */
  function ExitRoundSetup(b: Board, draws: seq<nat>): (r: Option<Board>)
    requires ValidDraws(draws)
    ensures r.Some? <==> |FreeRows(b.fences, draws)| >= SpawnCount
    ensures r.Some? ==> r.value.fences == b.fences && r.value.plants == b.plants
    ensures r.Some? ==> |r.value.rabbits| == |b.rabbits| + SpawnCount && r.value.rabbits[..|b.rabbits|] == b.rabbits
    ensures r.Some? ==> forall k :: |b.rabbits| <= k < |r.value.rabbits| ==>
      r.value.rabbits[k].x == SpawnColumn && r.value.rabbits[k].y < SpawnRows && r.value.rabbits[k] !in b.fences
  {
    match SpawnRabbits(b.fences, draws)
    case None => None
    case Some(spawned) => Some(b.(rabbits := b.rabbits + spawned))
  }

  /** Entering the pest turn moves every rabbit once; fences and plants are left alone. */
  function EnterPestTurn(b: Board): (r: Board)
    ensures r.fences == b.fences && r.plants == b.plants
    ensures |r.rabbits| == |b.rabbits|
    ensures forall i :: 0 <= i < |r.rabbits| ==> r.rabbits[i] == StepRabbit(b.rabbits[i], b.fences)
  {
    b.(rabbits := Movement(b.rabbits, b.fences))
  }

  /**
   * Entering end of round decrements every plant, then tallies the score. The score
   * is returned for reporting and is not part of the board; it is the value of the
   * plants whose counter was one when the round ended.
   */
  function EnterEndOfRound(b: Board): (r: (Board, nat))
    ensures r.0 == b.(plants := IncrementMaturity(b.plants))
    ensures r.1 == ValueWithCounter(r.0.plants, 0) == ValueWithCounter(b.plants, 1)
  {
    var decremented := b.(plants := IncrementMaturity(b.plants));
    ScoreAfterDecrement(b.plants);
    (decremented, ValueWithCounter(decremented.plants, 0))
  }

  /** Entering round cleanup removes the mature plants; fences and rabbits are left alone. */
  function EnterRoundCleanup(b: Board): (r: Board)
    ensures r.fences == b.fences && r.rabbits == b.rabbits
    ensures r.plants == DespawnMature(b.plants)
  {
    b.(plants := DespawnMature(b.plants))
  }

  /** End of round followed by cleanup is one round of plant maturity. */
  lemma EndOfRoundThenCleanup(b: Board)
    ensures EnterRoundCleanup(EnterEndOfRound(b).0).plants == Round(b.plants)
  {
  }

  /** The systems scheduled on a change of turn state from `from` to `to`. */
  function OnTransition(from: TurnState, to: TurnState, b: Board, draws: seq<nat>): (r: Option<Board>)
    requires ValidDraws(draws)
    ensures from == to ==> r == Some(b)
    ensures from != RoundSetup ==> r.Some?
    ensures from == RoundSetup && to != from ==> (r.Some? <==> ExitRoundSetup(b, draws).Some?)
    ensures from == RoundSetup && to == StartOfRound ==> r == ExitRoundSetup(b, draws)
    ensures from != to && from != RoundSetup && to == PestTurn ==> r == Some(EnterPestTurn(b))
    ensures from != to && from != RoundSetup && to == EndOfRound ==> r == Some(EnterEndOfRound(b).0)
    ensures from != to && from != RoundSetup && to == RoundCleanup ==> r == Some(EnterRoundCleanup(b))
    ensures from != to && from != RoundSetup && to != PestTurn && to != EndOfRound && to != RoundCleanup ==> r == Some(b)
    ensures r.Some? && to != EndOfRound && to != RoundCleanup ==> r.value.plants == b.plants
  {
    if from == to then Some(b)
    else
      var exited := if from == RoundSetup then ExitRoundSetup(b, draws) else Some(b);
      match exited
      case None => None
      case Some(b') =>
        Some(match to
          case PestTurn => EnterPestTurn(b')
          case EndOfRound => EnterEndOfRound(b').0
          case RoundCleanup => EnterRoundCleanup(b')
          case _ => b')
  }

  /** The phases in which plants mature and are cleared. */
  predicate IsRoundEnd(t: TurnState) {
    t == EndOfRound || t == RoundCleanup
  }

  /** The top-level game states after asset loading: the menu, and play. */
  datatype GameMode = Menu | Playing

  /** The whole game: its top-level state and the state of play. */
  datatype Session = Session(mode: GameMode, ui: UiState)

  /** Why play stopped: the queue head was removed from an empty queue, or the spawn draws ran out. */
  datatype GameError = Panicked | SpawnDrawsExhausted

  /**
   * One frame's input, with the random draws the frame's systems may consume: a
   * keyboard event with spawn rows, or a mouse event with spawn rows and the five
   * placables a queue setup would draw.
   */
  datatype Frame =
    | KeyFrame(key: Option<KeyboardInput>, draws: seq<nat>)
    | ClickFrame(click: Click, draws: seq<nat>, queueDraws: seq<PlacableTile>)

  predicate ValidFrame(f: Frame) {
    && ValidDraws(f.draws)
    && (f.ClickFrame? ==> |f.queueDraws| >= QueueLength)
  }

  /** The play state as it is when loading has finished: the menu, the initial turn, no queue, an empty map. */
  function StartSession(): (s: Session)
    ensures s.mode == Menu && s.ui.turn == InitialTurn && |s.ui.queue| == 0 && s.ui.board == EmptyBoard
  {
    Session(Menu, UiState(InitialTurn, [], EmptyBoard))
  }

  /**
   * One frame. In play the turn system sees the frame's keyboard event (none on a
   * mouse frame) and Escape returns to the menu, emptying the queue. The placement
   * system sees the mouse event whenever the turn is the player's, and also in the
   * menu unless `placeOnlyInPlay`. In the menu the Play button fills the panel, so a
   * left release re-enters play with a fresh queue and the turn, rabbits and plants
   * as they were. The systems of any turn change run last.
   */
  function Advance(sess: Session, f: Frame, mapSize: int, placeOnlyInPlay: bool): (r: Result<Session, GameError>)
    requires ValidFrame(f)
    ensures r.Success? && !IsRoundEnd(sess.ui.turn) ==> !IsRoundEnd(r.value.ui.turn)
    ensures r.Success? && !IsRoundEnd(sess.ui.turn) ==> sess.ui.board.plants <= r.value.ui.board.plants
  {
    var s := sess.ui;
    match f
    case KeyFrame(key, draws) =>
      if sess.mode == Menu then Success(sess)
      else
        var turn := ProgressTurn(s.turn, key);
        (match OnTransition(s.turn, turn, s.board, draws)
         case None => Failure(SpawnDrawsExhausted)
         case Some(b) =>
           if EscapePressed(key) then Success(Session(Menu, UiState(turn, CleanupQueue(s.queue), b)))
           else Success(Session(Playing, UiState(turn, s.queue, b))))
    case ClickFrame(c, draws, queueDraws) =>
      var placed := if sess.mode == Playing || !placeOnlyInPlay then PlaceTile(s, c, mapSize) else Success(s);
      match placed
      case Failure(_) => Failure(Panicked)
      case Success(p) =>
        var turn := if sess.mode == Playing && IsAutomatic(s.turn) then ProgressTurn(s.turn, None) else p.turn;
        match OnTransition(s.turn, turn, p.board, draws)
        case None => Failure(SpawnDrawsExhausted)
        case Some(b) =>
          var s' := UiState(turn, p.queue, b);
          if sess.mode == Menu && IsLeftRelease(c.event) then
            Success(Session(Playing, s'.(queue := SetupQueue(queueDraws))))
          else Success(Session(sess.mode, s'))
  }

  /** In play, the queue is not empty. */
  predicate QueueReady(sess: Session) {
    sess.mode == Playing ==> |sess.ui.queue| > 0
  }

  /**
   * A frame with placement confined to play. The menu ignores the keyboard and a
   * left release there re-enters play with five fresh tiles and the turn and map
   * unchanged. In play a keyboard frame moves the turn by the turn update and
   * leaves for the menu exactly on Escape, emptying the queue; a mouse frame moves
   * an automatic phase on as if no key were pressed, in the player's turn does what
   * the placement system does, and in the other phases changes nothing. The board
   * is the one the systems of the turn change leave, run on the board before the
   * frame or, in the player's turn, on the board placement leaves, and the frame
   * succeeds exactly when those systems do. Only leaving round setup in play can run
   * out of spawn draws. A frame never panics while the queue is ready, and keeps it
   * ready.
   */
  function Step(sess: Session, f: Frame, mapSize: int): (r: Result<Session, GameError>)
    requires ValidFrame(f)
    ensures QueueReady(sess) ==> r != Failure(Panicked)
    ensures QueueReady(sess) && r.Success? ==> QueueReady(r.value)
    ensures sess.mode == Menu && f.KeyFrame? ==> r == Success(sess)
    ensures sess.mode == Menu && f.ClickFrame? && IsLeftRelease(f.click.event) ==>
      r == Success(Session(Playing, sess.ui.(queue := SetupQueue(f.queueDraws))))
    ensures sess.mode == Menu && f.ClickFrame? && !IsLeftRelease(f.click.event) ==> r == Success(sess)
    ensures sess.mode == Playing && f.KeyFrame? ==>
      (r.Success? <==> OnTransition(sess.ui.turn, ProgressTurn(sess.ui.turn, f.key), sess.ui.board, f.draws).Some?)
    ensures sess.mode == Playing && f.KeyFrame? && r.Success? ==>
      && r.value.ui.turn == ProgressTurn(sess.ui.turn, f.key)
      && (r.value.mode == Menu <==> EscapePressed(f.key))
      && r.value.ui.queue == (if EscapePressed(f.key) then [] else sess.ui.queue)
      && Some(r.value.ui.board) == OnTransition(sess.ui.turn, r.value.ui.turn, sess.ui.board, f.draws)
    ensures sess.mode == Playing && f.ClickFrame? && IsAutomatic(sess.ui.turn) ==>
      (r.Success? <==> OnTransition(sess.ui.turn, ProgressTurn(sess.ui.turn, None), sess.ui.board, f.draws).Some?)
    ensures sess.mode == Playing && f.ClickFrame? && (sess.ui.turn == PestTurn || IsRoundEnd(sess.ui.turn)) ==>
      r == Success(sess)
    ensures sess.mode == Playing && f.ClickFrame? && IsAutomatic(sess.ui.turn) && r.Success? ==>
      && r.value.mode == Playing && r.value.ui.turn == ProgressTurn(sess.ui.turn, None) && r.value.ui.queue == sess.ui.queue
      && Some(r.value.ui.board) == OnTransition(sess.ui.turn, r.value.ui.turn, sess.ui.board, f.draws)
    ensures sess.mode == Playing && f.ClickFrame? && sess.ui.turn == PlayerTurn ==>
      var placed := PlaceTile(sess.ui, f.click, mapSize);
      && (r.Failure? <==> placed.Failure?)
      && (r.Success? ==> r.value.mode == Playing && r.value.ui.turn == placed.value.turn && r.value.ui.queue == placed.value.queue)
      && (r.Success? ==> Some(r.value.ui.board) == OnTransition(PlayerTurn, placed.value.turn, placed.value.board, f.draws))
    ensures r == Failure(SpawnDrawsExhausted) ==> sess.mode == Playing && sess.ui.turn == RoundSetup
    ensures r.Success? && !IsRoundEnd(sess.ui.turn) ==> !IsRoundEnd(r.value.ui.turn)
    ensures r.Success? && !IsRoundEnd(sess.ui.turn) ==> sess.ui.board.plants <= r.value.ui.board.plants
  {
    Advance(sess, f, mapSize, true)
  }

  /**
   * A frame as the plugins schedule it: the placement system runs whenever the turn
   * is the player's, in the menu too. After leaving play during the player's turn,
   * an accepted left release in the menu takes the head of the emptied queue. Every
   * frame in play, and every menu frame but an accepted click in the player's turn,
   * is the same as with placement confined to play.
   */
  function StepAsWritten(sess: Session, f: Frame, mapSize: int): (r: Result<Session, GameError>)
    requires ValidFrame(f)
    ensures (sess.mode == Menu && f.ClickFrame? && sess.ui.turn == PlayerTurn && |sess.ui.queue| == 0
             && Accepted(f.click, mapSize)) ==> r == Failure(Panicked)
    ensures sess.mode == Playing ==> r == Step(sess, f, mapSize)
    ensures sess.mode == Menu && !(f.ClickFrame? && sess.ui.turn == PlayerTurn && Accepted(f.click, mapSize)) ==>
      r == Step(sess, f, mapSize)
  {
    Advance(sess, f, mapSize, false)
  }

  /**
   * The panic the schedule allows: in the player's turn press Escape, then click Play
   * with the cursor over an interior tile. With placement confined to play the same
   * frames re-enter play with a fresh queue.
   */
  lemma MenuClickPanics(q: TileQueue, draws: seq<PlacableTile>)
    requires |q| == QueueLength && |draws| == QueueLength
    ensures var start := Session(Playing, UiState(PlayerTurn, q, EmptyBoard));
      var escape := KeyFrame(Some(KeyboardInput(Pressed, Some(Escape))), []);
      var click := ClickFrame(Click(MouseButtonInput(Left, Released), Some((8, 8)), Carrot), [], draws);
      var inMenu := Session(Menu, UiState(PlayerTurn, [], EmptyBoard));
      && StepAsWritten(start, escape, 16) == Success(inMenu)
      && StepAsWritten(inMenu, click, 16) == Failure(Panicked)
      && Step(start, escape, 16) == Success(inMenu)
      && Step(inMenu, click, 16) == Success(Session(Playing, UiState(PlayerTurn, SetupQueue(draws), EmptyBoard)))
  {
  }

  /** Frames applied in order, stopping at the first failure. */
  function Play(s: Session, frames: seq<Frame>, mapSize: int): Result<Session, GameError>
    requires forall i :: 0 <= i < |frames| ==> ValidFrame(frames[i])
    decreases |frames|
  {
    if |frames| == 0 then Success(s)
    else match Step(s, frames[0], mapSize)
      case Failure(e) => Failure(e)
      case Success(s') => Play(s', frames[1..], mapSize)
  }

  /** From a session whose queue is ready, and from the start in particular, no series of frames panics. */
  lemma {:induction false} PlayNeverPanics(s: Session, frames: seq<Frame>, mapSize: int)
    requires forall i :: 0 <= i < |frames| ==> ValidFrame(frames[i])
    requires QueueReady(s)
    ensures Play(s, frames, mapSize) != Failure(Panicked)
    decreases |frames|
  {
    if |frames| > 0 {
      match Step(s, frames[0], mapSize)
      case Failure(_) =>
      case Success(s') =>
        PlayNeverPanics(s', frames[1..], mapSize);
    }
  }

  /**
   * Outside the end-of-round phases no frame ever reaches them, so no plant is ever
   * decremented, scored or cleared: the plants present stay, unchanged, at the front
   * of the plant layer for the rest of play.
   */
  lemma {:induction false} RoundsNeverEnd(s: Session, frames: seq<Frame>, mapSize: int)
    requires forall i :: 0 <= i < |frames| ==> ValidFrame(frames[i])
    requires !IsRoundEnd(s.ui.turn)
    ensures Play(s, frames, mapSize).Success? ==>
      && !IsRoundEnd(Play(s, frames, mapSize).value.ui.turn)
      && s.ui.board.plants <= Play(s, frames, mapSize).value.ui.board.plants
    decreases |frames|
  {
    if |frames| > 0 {
      match Step(s, frames[0], mapSize)
      case Failure(_) =>
      case Success(s') =>
        RoundsNeverEnd(s', frames[1..], mapSize);
    }
  }
}

=== FILE: grid.dfy ===
/** Tile positions and tile-map layers. */
module Grid {

  /** A tile position. Tile coordinates are unsigned in the game. */
  datatype Pos = Pos(x: nat, y: nat)

  /** The tile-map layers a tile can be set on. */
  datatype GameLayer = Fences | Plants | Pests
}

=== FILE: input.dfy ===
/** The engine's raw input events, as the game's systems read them. */
module Input {
  import opened Wrappers

  /** Whether a key or button event is a press or a release. */
  datatype ElementState = Pressed | Released

  /** Key codes; only Space and Escape matter to the game, every other key is `OtherKey`. */
  datatype KeyCode = Space | Escape | OtherKey(code: nat)

  /** A keyboard event; `keyCode` is absent for keys the engine cannot name. */
  datatype KeyboardInput = KeyboardInput(state: ElementState, keyCode: Option<KeyCode>)

  datatype MouseButton = Left | Right | Middle | OtherButton(code: nat)

  /** A mouse button event. */
  datatype MouseButtonInput = MouseButtonInput(button: MouseButton, state: ElementState)

  /** True exactly for a press of the Space key. */
  predicate IsSpacePress(e: KeyboardInput) {
    e.state == Pressed && e.keyCode == Some(Space)
  }

  /** True exactly when this update's keyboard event is a Space press. */
  predicate SpacePressed(input: Option<KeyboardInput>) {
    input.Some? && IsSpacePress(input.value)
  }

  /** True exactly when this update's keyboard event is an Escape press. */
  predicate EscapePressed(input: Option<KeyboardInput>) {
    input.Some? && input.value.state == Pressed && input.value.keyCode == Some(Escape)
  }

  /** True exactly for a release of the left mouse button. */
  predicate IsLeftRelease(e: MouseButtonInput) {
    e.button == Left && e.state == Released
  }
}

=== FILE: main_ui.dfy ===
/** The placement interface: placable tiles, the tile queue and the click that places a tile. */
module MainUi {
  import opened Wrappers
  import opened Grid
  import opened Input
  import opened TurnStructure
  import opened PlantRules
  import opened TileMap
  import opened Scoring

  /** The tiles the player can place. */
  datatype PlacableTile = Carrot | Pumpkin | Fence

  /** What placing a tile sets on the map: texture index, layer, and a plant's starting counter. */
  datatype TileSpec = TileSpec(texture: nat, layer: GameLayer, maturity: Option<int>)

  /**
   * The tile each placable sets: a crop goes on the Plants layer with a positive
   * maturity counter, a fence on the Fences layer with none.
   */
  function SpecOf(t: PlacableTile): (r: TileSpec)
    ensures r.layer == Plants <==> t != Fence
    ensures r.layer == Fences <==> t == Fence
    ensures r.maturity.Some? <==> r.layer == Plants
    ensures r.maturity.Some? ==> r.maturity.value >= 1
  {
    match t
    case Carrot => TileSpec(3, Plants, Some(1))
    case Pumpkin => TileSpec(2, Plants, Some(4))
    case Fence => TileSpec(0, Fences, None)
  }

  /**
   * Sets a placable's tile at `pos`. A crop adds a plant with its starting counter
   * and no score value; a fence occupies the cell on the Fences layer. Rabbits are
   * never touched.
   */
  function PlaceOnMap(t: PlacableTile, pos: Pos, b: Board): (r: Board)
    ensures r.rabbits == b.rabbits
    ensures t == Fence ==> r.fences == b.fences + {pos} && r.plants == b.plants
    ensures t != Fence ==> r.fences == b.fences && r.plants == b.plants + [Plant(pos, SpecOf(t).maturity.value, None)]
  {
    match SpecOf(t).maturity
    case None => b.(fences := b.fences + {pos})
    case Some(n) => b.(plants := b.plants + [Plant(pos, n, None)])
  }

  /**
   * A placed crop with starting counter n is still on the map, counting down, for
   * the first k < n rounds, and is gone from round n on; the other plants' rounds
   * are unaffected. A carrot is gone after one round, a pumpkin after four.
   */
  lemma PlacedCropLifecycle(t: PlacableTile, pos: Pos, b: Board, k: nat)
    requires t != Fence
    ensures var n := SpecOf(t).maturity.value;
      Rounds(PlaceOnMap(t, pos, b).plants, k) ==
        Rounds(b.plants, k) + (if k < n then [Plant(pos, n - k, None)] else [])
  {
    var n := SpecOf(t).maturity.value;
    var p := Plant(pos, n, None);
    RoundsAppend(b.plants, [p], k);
    Lifecycle(p, k);
    if k == 0 {
      assert p.(roundsTillMature := n - k) == p;
    }
  }

  /** A placed crop carries no score value, so it never changes any round's tally. */
  lemma PlacedCropScoresNothing(t: PlacableTile, pos: Pos, b: Board, k: int)
    ensures ValueWithCounter(PlaceOnMap(t, pos, b).plants, k) == ValueWithCounter(b.plants, k)
  {
    if t != Fence {
      var p := Plant(pos, SpecOf(t).maturity.value, None);
      ValueWithCounterAppend(b.plants, [p], k);
      assert [p][1..] == [];
    }
  }

  /** The number of entries the tile queue is filled with. */
  const QueueLength: nat := 5

  /**
   * The tile queue, front first. An entry is the placable its entity carries, or
   * None when that entity can no longer be looked up.
   */
  type TileQueue = seq<Option<PlacableTile>>

  /** Fills a cleared queue with five tiles drawn at random, in draw order. */
  function SetupQueue(draws: seq<PlacableTile>): (q: TileQueue)
    requires |draws| >= QueueLength
    ensures |q| == QueueLength
    ensures forall i :: 0 <= i < |q| ==> q[i] == Some(draws[i])
  {
    seq(QueueLength, i requires 0 <= i < QueueLength => Some(draws[i]))
  }

  /** Leaving play empties the queue, whatever it held. */
  function CleanupQueue(q: TileQueue): (r: TileQueue)
    ensures |r| == 0
  {
    []
  }

  /** The interior cells a click may place on: a two-cell margin on every side is refused. */
  predicate InPlacementArea(x: int, y: int, mapSize: int) {
    1 < x < mapSize - 2 && 1 < y < mapSize - 2
  }

  /** The state the placement system reads and writes. */
  datatype UiState = UiState(turn: TurnState, queue: TileQueue, board: Board)

  /** Removing the head of an empty queue aborts the game. */
  datatype PlaceError = EmptyQueuePanic

  /**
   * One mouse event seen by the placement system: the event, the cursor's tile when
   * the map's transform is found, and the tile drawn to refill the queue.
   */
  datatype Click = Click(event: MouseButtonInput, cursorTile: Option<(int, int)>, draw: PlacableTile)

  /** The click is a left release over an interior cell of the map. */
  predicate Accepted(c: Click, mapSize: int) {
    && IsLeftRelease(c.event)
    && c.cursorTile.Some?
    && InPlacementArea(c.cursorTile.value.0, c.cursorTile.value.1, mapSize)
  }

  /**
   * The placement system, which runs only during the player's turn. An accepted
   * click always rotates the queue: the head is removed and the drawn tile appended.
   * If the head's tile resolves it is placed at the clicked cell and the turn passes
   * to the pests; otherwise nothing is placed and the turn stays. Any other event
   * changes nothing.
   */
  function PlaceTile(s: UiState, c: Click, mapSize: int): (r: Result<UiState, PlaceError>)
    ensures s.turn != PlayerTurn || !Accepted(c, mapSize) ==> r == Success(s)
    ensures s.turn == PlayerTurn && Accepted(c, mapSize) && |s.queue| == 0 ==> r == Failure(EmptyQueuePanic)
    ensures s.turn == PlayerTurn && Accepted(c, mapSize) && |s.queue| > 0 ==>
      && r.Success?
      && |r.value.queue| == |s.queue|
      && r.value.queue == s.queue[1..] + [Some(c.draw)]
    ensures s.turn == PlayerTurn && Accepted(c, mapSize) && |s.queue| > 0 && s.queue[0].Some? ==>
      var (x, y) := c.cursorTile.value;
      && r.Success?
      && r.value.board == PlaceOnMap(s.queue[0].value, Pos(x, y), s.board)
      && r.value.turn == PestTurn
    ensures s.turn == PlayerTurn && Accepted(c, mapSize) && |s.queue| > 0 && s.queue[0].None? ==>
      r.Success? && r.value.board == s.board && r.value.turn == s.turn
  {
    if s.turn != PlayerTurn || !Accepted(c, mapSize) then Success(s)
    else if |s.queue| == 0 then Failure(EmptyQueuePanic)
    else
      var head := s.queue[0];
      var queue := s.queue[1..] + [Some(c.draw)];
      match head
      case None => Success(s.(queue := queue))
      case Some(t) =>
        var (x, y) := c.cursorTile.value;
        Success(UiState(PestTurn, queue, PlaceOnMap(t, Pos(x, y), s.board)))
  }

  /** Every entry of the queue resolves to a placable. */
  predicate AllResolve(q: TileQueue) {
    forall i :: 0 <= i < |q| ==> q[i].Some?
  }

  /** The placement system applied to a series of clicks, stopping at a failure. */
  function PlaceAll(s: UiState, clicks: seq<Click>, mapSize: int): Result<UiState, PlaceError>
    decreases |clicks|
  {
    if |clicks| == 0 then Success(s)
    else match PlaceTile(s, clicks[0], mapSize)
      case Failure(e) => Failure(e)
      case Success(s') => PlaceAll(s', clicks[1..], mapSize)
  }

  /**
   * A non-empty queue never empties: any series of clicks keeps its length, never
   * panics, and keeps every entry resolvable if every entry was.
   */
  lemma {:induction false} QueueStaysFull(s: UiState, clicks: seq<Click>, mapSize: int)
    requires |s.queue| > 0
    ensures PlaceAll(s, clicks, mapSize).Success?
    ensures |PlaceAll(s, clicks, mapSize).value.queue| == |s.queue|
    ensures AllResolve(s.queue) ==> AllResolve(PlaceAll(s, clicks, mapSize).value.queue)
    decreases |clicks|
  {
    if |clicks| > 0 {
      var s' := PlaceTile(s, clicks[0], mapSize).value;
      QueueStaysFull(s', clicks[1..], mapSize);
    }
  }
}

=== FILE: pests.dfy ===
/** The rabbit rules: the movement pass on entering the pest turn and the spawn at round setup. */
module PestRules {
  import opened Wrappers
  import opened Grid

  /** The column rabbits spawn in. */
  const SpawnColumn: nat := 15

  /** Spawn rows are drawn from 0 up to, not including, this bound. */
  const SpawnRows: nat := 15

  /** The number of rabbits spawned each round. */
  const SpawnCount: nat := 4

  /** One rabbit's step: one cell toward x = 0, unless a fence occupies that cell. */
  function StepRabbit(p: Pos, fences: set<Pos>): (r: Pos)
    ensures r.y == p.y
    ensures r.x <= p.x <= r.x + 1
    ensures p.x == 0 ==> r == p
    ensures p.x > 0 ==> (r == Pos(p.x - 1, p.y) <==> Pos(p.x - 1, p.y) !in fences)
    ensures r != p ==> r !in fences
  {
    if p.x > 0 then
      var target := Pos(p.x - 1, p.y);
      if target !in fences then target else p
    else p
  }

  /**
   * One movement pass over all rabbits. Only fences block: other rabbits and plants
   * are not consulted, and no rabbit is added or removed.
   */
  function Movement(rabbits: seq<Pos>, fences: set<Pos>): (r: seq<Pos>)
    ensures |r| == |rabbits|
    ensures forall i :: 0 <= i < |r| ==> r[i].y == rabbits[i].y && r[i].x <= rabbits[i].x <= r[i].x + 1
    ensures forall i :: 0 <= i < |r| ==>
      (r[i].x < rabbits[i].x <==> rabbits[i].x > 0 && Pos(rabbits[i].x - 1, rabbits[i].y) !in fences)
    ensures forall i :: 0 <= i < |r| && r[i] != rabbits[i] ==> r[i] !in fences
  {
    seq(|rabbits|, i requires 0 <= i < |rabbits| => StepRabbit(rabbits[i], fences))
  }

  /** Visits each index of a sequence of length `n` exactly once. */
  ghost predicate IsVisitOrder(order: seq<nat>, n: nat) {
    && (forall k :: 0 <= k < |order| ==> order[k] < n)
    && (forall j, k :: 0 <= j < k < |order| ==> order[j] != order[k])
    && (forall i :: 0 <= i < n ==> i in order)
  }

  /**
   * The movement system as the engine runs it: rabbits are updated in place, one at
   * a time, in whatever order the query yields them. Every order gives the same pass.
   */
  method RabbitMovement(rabbits: seq<Pos>, fences: set<Pos>, order: seq<nat>) returns (moved: seq<Pos>)
    requires IsVisitOrder(order, |rabbits|)
    ensures moved == Movement(rabbits, fences)
  {
    moved := rabbits;
    var k := 0;
    while k < |order|
      invariant 0 <= k <= |order|
      invariant |moved| == |rabbits|
      invariant forall i :: 0 <= i < |rabbits| ==>
        moved[i] == if i in order[..k] then StepRabbit(rabbits[i], fences) else rabbits[i]
    {
      var i := order[k];
      assert order[..k + 1] == order[..k] + [i];
      assert i !in order[..k];
      moved := moved[i := StepRabbit(moved[i], fences)];
      k := k + 1;
    }
    assert order[..k] == order;
  }

  /** Repeated passes against a fixed fence set. */
  function Passes(rabbits: seq<Pos>, fences: set<Pos>, k: nat): seq<Pos>
    decreases k
  {
    if k == 0 then rabbits else Movement(Passes(rabbits, fences, k - 1), fences)
  }

  /** With no fence in the way, k passes carry every rabbit k cells toward x = 0, stopping at 0. */
  lemma {:induction false} UnfencedPasses(rabbits: seq<Pos>, k: nat)
    ensures |Passes(rabbits, {}, k)| == |rabbits|
    ensures forall i :: 0 <= i < |rabbits| ==>
      Passes(rabbits, {}, k)[i] == Pos(if rabbits[i].x >= k then rabbits[i].x - k else 0, rabbits[i].y)
    decreases k
  {
    if k > 0 {
      UnfencedPasses(rabbits, k - 1);
    }
  }

  /** The rows of the draws whose cell in the spawn column holds no fence, in draw order. */
  function FreeRows(fences: set<Pos>, draws: seq<nat>): (ys: seq<nat>)
    ensures |ys| <= |draws|
    decreases |draws|
  {
    if |draws| == 0 then []
    else (if Pos(SpawnColumn, draws[0]) !in fences then [draws[0]] else []) + FreeRows(fences, draws[1..])
  }

  /** The index of the first draw whose cell in the spawn column holds no fence. */
  function FirstFreeDraw(fences: set<Pos>, draws: seq<nat>): (r: Option<nat>)
    ensures r.Some? ==> r.value < |draws| && Pos(SpawnColumn, draws[r.value]) !in fences
    ensures r.Some? ==> forall j :: 0 <= j < r.value ==> Pos(SpawnColumn, draws[j]) in fences
    ensures r.None? ==> forall j :: 0 <= j < |draws| ==> Pos(SpawnColumn, draws[j]) in fences
    decreases |draws|
  {
    if |draws| == 0 then None
    else if Pos(SpawnColumn, draws[0]) !in fences then Some(0)
    else match FirstFreeDraw(fences, draws[1..])
      case None => None
      case Some(i) => Some(i + 1)
  }

  /** The free rows of a stream start with the first free draw; a stream without one has none. */
  lemma {:induction false} FreeRowsAtFirstFree(fences: set<Pos>, draws: seq<nat>)
    ensures FirstFreeDraw(fences, draws).None? ==> FreeRows(fences, draws) == []
    ensures FirstFreeDraw(fences, draws).Some? ==>
      var i := FirstFreeDraw(fences, draws).value;
      FreeRows(fences, draws) == [draws[i]] + FreeRows(fences, draws[i + 1..])
    decreases |draws|
  {
    if |draws| > 0 && Pos(SpawnColumn, draws[0]) in fences {
      FreeRowsAtFirstFree(fences, draws[1..]);
      if FirstFreeDraw(fences, draws[1..]).Some? {
        var i := FirstFreeDraw(fences, draws[1..]).value;
        assert draws[1..][i + 1..] == draws[i + 2..];
      }
    }
  }

  /** The cells of the spawn column at the given rows. */
  function InSpawnColumn(ys: seq<nat>): (ps: seq<Pos>)
    ensures |ps| == |ys|
  {
    seq(|ys|, i requires 0 <= i < |ys| => Pos(SpawnColumn, ys[i]))
  }

  /**
   * Spawns `n` rabbits, each rerolling its row from the draw stream until the cell
   * holds no fence. None when the stream runs out first: the game's reroll loop
   * would keep drawing.
   */
  function SpawnFrom(fences: set<Pos>, draws: seq<nat>, n: nat): (r: Option<seq<Pos>>)
    ensures r.Some? <==> |FreeRows(fences, draws)| >= n
    ensures r.Some? ==> r.value == InSpawnColumn(FreeRows(fences, draws)[..n])
    decreases n
  {
    if n == 0 then Some([])
    else match FirstFreeDraw(fences, draws)
      case None =>
        FreeRowsAtFirstFree(fences, draws);
        None
      case Some(i) =>
        match SpawnFrom(fences, draws[i + 1..], n - 1)
        case None =>
          FreeRowsAtFirstFree(fences, draws);
          None
        case Some(rest) =>
          FreeRowsAtFirstFree(fences, draws);
          SpawnColumnCons(draws[i], FreeRows(fences, draws[i + 1..]), n - 1);
          Some([Pos(SpawnColumn, draws[i])] + rest)
  }

  /** Placing a row in front of the first `n` free rows puts its cell in front of their cells. */
  lemma SpawnColumnCons(y: nat, ys: seq<nat>, n: nat)
    requires n <= |ys|
    ensures InSpawnColumn(([y] + ys)[..n + 1]) == [Pos(SpawnColumn, y)] + InSpawnColumn(ys[..n])
  {
  }

  /**
   * The round-setup spawn: four rabbits in the spawn column, on rows the generator
   * drew from 0 to 14, none on a fenced cell. It fails only when the draws hold
   * fewer than four unfenced rows.
   */
  function SpawnRabbits(fences: set<Pos>, draws: seq<nat>): (r: Option<seq<Pos>>)
    requires forall j :: 0 <= j < |draws| ==> draws[j] < SpawnRows
    ensures r.Some? <==> |FreeRows(fences, draws)| >= SpawnCount
    ensures r.Some? ==> |r.value| == SpawnCount
    ensures r.Some? ==> forall k :: 0 <= k < |r.value| ==>
      r.value[k].x == SpawnColumn && r.value[k].y < SpawnRows && r.value[k] !in fences
  {
    var r := SpawnFrom(fences, draws, SpawnCount);
    if r.Some? then
      FreeRowsSound(fences, draws);
      r
    else r
  }

  /** Every free row is a drawn row whose spawn-column cell holds no fence. */
  lemma {:induction false} FreeRowsSound(fences: set<Pos>, draws: seq<nat>)
    ensures forall k :: 0 <= k < |FreeRows(fences, draws)| ==>
      FreeRows(fences, draws)[k] in draws && Pos(SpawnColumn, FreeRows(fences, draws)[k]) !in fences
    decreases |draws|
  {
    if |draws| > 0 {
      FreeRowsSound(fences, draws[1..]);
      var head := if Pos(SpawnColumn, draws[0]) !in fences then [draws[0]] else [];
      var ys := FreeRows(fences, draws);
      assert ys == head + FreeRows(fences, draws[1..]);
      forall k | 0 <= k < |ys|
        ensures ys[k] in draws && Pos(SpawnColumn, ys[k]) !in fences
      {
        if k >= |head| {
          assert ys[k] == FreeRows(fences, draws[1..])[k - |head|];
          assert ys[k] in draws[1..];
        }
      }
    }
  }
}

=== FILE: plants.dfy ===
/** Plant maturity: the end-of-round countdown and the cleanup of mature plants. */
module PlantRules {
  import opened Wrappers
  import opened Grid

  /**
   * A plant on the Plants layer: where it stands, how many rounds remain until it
   * matures (a signed 32-bit counter in the game), and its score value when the
   * plant component carries one.
   */
  datatype Plant = Plant(pos: Pos, roundsTillMature: int, value: Option<nat>)

  /** A plant whose counter has run out; cleanup removes it. */
  predicate IsMature(p: Plant) {
    p.roundsTillMature <= 0
  }

  /** The plant one round later. */
  function Decremented(p: Plant): Plant {
    p.(roundsTillMature := p.roundsTillMature - 1)
  }

  /**
   * The end-of-round maturity system: every plant's counter drops by exactly one,
   * with no lower bound, so a counter already at zero goes negative.
   */
  function IncrementMaturity(plants: seq<Plant>): (r: seq<Plant>)
    ensures |r| == |plants|
    ensures forall i :: 0 <= i < |plants| ==>
      && r[i].pos == plants[i].pos
      && r[i].value == plants[i].value
      && r[i].roundsTillMature == plants[i].roundsTillMature - 1
  {
    seq(|plants|, i requires 0 <= i < |plants| => Decremented(plants[i]))
  }

  /**
   * The round-cleanup system: removes exactly the plants whose counter is at most
   * zero; every other plant survives with its counter and position unchanged.
   */
  function DespawnMature(plants: seq<Plant>): (r: seq<Plant>)
    ensures |r| <= |plants|
    ensures forall i :: 0 <= i < |r| ==> !IsMature(r[i])
    decreases |plants|
  {
    if |plants| == 0 then []
    else
      var rest := DespawnMature(plants[1..]);
      assert plants == [plants[0]] + plants[1..];
      if IsMature(plants[0]) then rest else [plants[0]] + rest
  }

  /**
   * Cleanup removes exactly the mature plants: a plant is left afterwards iff it was
   * there and is not mature, and each survivor is kept exactly as often as it occurred.
   */
  lemma {:induction false} DespawnMatureCounts(plants: seq<Plant>, p: Plant)
    ensures p in DespawnMature(plants) <==> p in plants && !IsMature(p)
    ensures multiset(DespawnMature(plants))[p] == if IsMature(p) then 0 else multiset(plants)[p]
    decreases |plants|
  {
    if |plants| > 0 {
      DespawnMatureCounts(plants[1..], p);
      assert plants == [plants[0]] + plants[1..];
      assert multiset(plants) == multiset([plants[0]]) + multiset(plants[1..]);
      if !IsMature(plants[0]) {
        var rest := DespawnMature(plants[1..]);
        assert multiset([plants[0]] + rest) == multiset([plants[0]]) + multiset(rest);
      }
    }
  }

  /** Cleanup twice is cleanup once. */
  lemma {:induction false} DespawnMatureIdempotent(plants: seq<Plant>)
    ensures DespawnMature(DespawnMature(plants)) == DespawnMature(plants)
    decreases |plants|
  {
    if |plants| > 0 {
      DespawnMatureIdempotent(plants[1..]);
      var rest := DespawnMature(plants[1..]);
      if !IsMature(plants[0]) {
        assert ([plants[0]] + rest)[1..] == rest;
      }
    }
  }

  /** Cleanup treats each plant on its own: it distributes over concatenation. */
  lemma {:induction false} DespawnMatureAppend(a: seq<Plant>, b: seq<Plant>)
    ensures DespawnMature(a + b) == DespawnMature(a) + DespawnMature(b)
    decreases |a|
  {
    if |a| == 0 {
      assert a + b == b;
    } else {
      assert (a + b)[0] == a[0];
      assert (a + b)[1..] == a[1..] + b;
      DespawnMatureAppend(a[1..], b);
    }
  }

  /** The decrement treats each plant on its own: it distributes over concatenation. */
  lemma IncrementMaturityAppend(a: seq<Plant>, b: seq<Plant>)
    ensures IncrementMaturity(a + b) == IncrementMaturity(a) + IncrementMaturity(b)
  {
  }

  /** One round's effect on the plants: the end-of-round decrement, then the cleanup. */
  function Round(plants: seq<Plant>): seq<Plant> {
    DespawnMature(IncrementMaturity(plants))
  }

  /** One round treats each plant on its own. */
  lemma RoundAppend(a: seq<Plant>, b: seq<Plant>)
    ensures Round(a + b) == Round(a) + Round(b)
  {
    IncrementMaturityAppend(a, b);
    DespawnMatureAppend(IncrementMaturity(a), IncrementMaturity(b));
  }

  /** The plants after `k` rounds. */
  function Rounds(plants: seq<Plant>, k: nat): seq<Plant>
    decreases k
  {
    if k == 0 then plants else Round(Rounds(plants, k - 1))
  }

  /** Rounds treat each plant on its own: they distribute over concatenation. */
  lemma {:induction false} RoundsAppend(a: seq<Plant>, b: seq<Plant>, k: nat)
    ensures Rounds(a + b, k) == Rounds(a, k) + Rounds(b, k)
    decreases k
  {
    if k > 0 {
      RoundsAppend(a, b, k - 1);
      RoundAppend(Rounds(a, k - 1), Rounds(b, k - 1));
    }
  }

  /** No plants stay no plants. */
  lemma {:induction false} RoundsOfNothing(k: nat)
    ensures Rounds([], k) == []
    decreases k
  {
    if k > 0 {
      RoundsOfNothing(k - 1);
    }
  }

  /**
   * A plant with counter n survives the first k < n rounds with counter n - k and
   * is gone after round max(n, 1): one decrement and one cleanup per round.
   */
  lemma {:induction false} Lifecycle(p: Plant, k: nat)
    ensures k < p.roundsTillMature ==>
      Rounds([p], k) == [p.(roundsTillMature := p.roundsTillMature - k)]
    ensures k >= 1 && k >= p.roundsTillMature ==> Rounds([p], k) == []
    decreases k
  {
    if k > 0 {
      Lifecycle(p, k - 1);
      if k - 1 < p.roundsTillMature {
        var q := p.(roundsTillMature := p.roundsTillMature - (k - 1));
        assert IncrementMaturity([q]) == [Decremented(q)];
      } else {
        assert IncrementMaturity([]) == [];
      }
    }
  }

  /** The plants whose counter exceeds `k`, each with its counter lowered by `k`, in order. */
  function Aged(plants: seq<Plant>, k: nat): seq<Plant>
    decreases |plants|
  {
    if |plants| == 0 then []
    else
      var p := plants[0];
      var own := if p.roundsTillMature > k then [p.(roundsTillMature := p.roundsTillMature - k)] else [];
      own + Aged(plants[1..], k)
  }

  /**
   * After k >= 1 rounds exactly the plants whose counter exceeded k remain, in their
   * order, each counted down by k; all others have been cleared.
   */
  lemma {:induction false} RoundsLeaveAged(plants: seq<Plant>, k: nat)
    requires k >= 1
    ensures Rounds(plants, k) == Aged(plants, k)
    decreases |plants|
  {
    if |plants| == 0 {
      RoundsOfNothing(k);
    } else {
      var p := plants[0];
      assert plants == [p] + plants[1..];
      RoundsAppend([p], plants[1..], k);
      Lifecycle(p, k);
      RoundsLeaveAged(plants[1..], k);
    }
  }
}

=== FILE: scoring.dfy ===
/** Scoring: the end-of-round score tally and the prize-plant banding. */
module Scoring {
  import opened Wrappers
  import opened PlantRules

  /** A plant's score value; a plant component without one contributes nothing. */
  function ValueOf(p: Plant): nat {
    p.value.GetOr(0)
  }

  /** The total score value of the plants whose counter is exactly `k`. */
  function ValueWithCounter(plants: seq<Plant>, k: int): nat
    decreases |plants|
  {
    if |plants| == 0 then 0
    else
      var own := if plants[0].roundsTillMature == k then ValueOf(plants[0]) else 0;
      own + ValueWithCounter(plants[1..], k)
  }

  /** The tally splits over a concatenation of plant sequences. */
  lemma {:induction false} ValueWithCounterAppend(a: seq<Plant>, b: seq<Plant>, k: int)
    ensures ValueWithCounter(a + b, k) == ValueWithCounter(a, k) + ValueWithCounter(b, k)
    decreases |a|
  {
    if |a| == 0 {
      assert a + b == b;
    } else {
      assert (a + b)[0] == a[0];
      assert (a + b)[1..] == a[1..] + b;
      ValueWithCounterAppend(a[1..], b, k);
    }
  }

  /**
   * The round score system: the sum of the values of the plants whose counter is
   * exactly zero, accumulated plant by plant. The total is returned to be reported,
   * never stored.
   */
  method Score(plants: seq<Plant>) returns (total: nat)
    ensures total == ValueWithCounter(plants, 0)
  {
    total := 0;
    var i := 0;
    while i < |plants|
      invariant 0 <= i <= |plants|
      invariant total == ValueWithCounter(plants[..i], 0)
    {
      var p := plants[i];
      assert plants[..i + 1] == plants[..i] + [p];
      ValueWithCounterAppend(plants[..i], [p], 0);
      if p.roundsTillMature == 0 {
        total := total + ValueOf(p);
      }
      i := i + 1;
    }
    assert plants[..i] == plants;
  }

  /**
   * The tally is zero exactly when every plant with counter `k` carries no value:
   * plants with any other counter, positive or negative, never contribute.
   */
  lemma {:induction false} ValueWithCounterZero(plants: seq<Plant>, k: int)
    ensures ValueWithCounter(plants, k) == 0 <==>
      forall i :: 0 <= i < |plants| && plants[i].roundsTillMature == k ==> ValueOf(plants[i]) == 0
    decreases |plants|
  {
    if |plants| > 0 {
      ValueWithCounterZero(plants[1..], k);
      forall i | 1 <= i < |plants| ensures plants[i] == plants[1..][i - 1] { }
    }
  }

  /**
   * Scoring runs after the end-of-round decrement, so the score counts the plants
   * whose counter was one when the round ended: those reaching zero this round.
   */
  lemma {:induction false} ScoreAfterDecrement(plants: seq<Plant>)
    ensures ValueWithCounter(IncrementMaturity(plants), 0) == ValueWithCounter(plants, 1)
    decreases |plants|
  {
    if |plants| > 0 {
      IncrementMaturityAppend([plants[0]], plants[1..]);
      assert [plants[0]] + plants[1..] == plants;
      ScoreAfterDecrement(plants[1..]);
      assert IncrementMaturity(plants)[1..] == IncrementMaturity(plants[1..]);
    }
  }

  /** The four prize overlays. */
  datatype Prize = NoPrize | FirstPrize | SecondPrize | ThirdPrize

  /**
   * The prize band for a prize-plant score: zero gives no prize, exactly ten the
   * first prize, anything else above five (above ten included) the second, and one
   * to five the third.
   */
  function PrizeBand(score: nat): (r: Prize)
    ensures r == NoPrize <==> score == 0
    ensures r == FirstPrize <==> score == 10
    ensures r == SecondPrize <==> score > 5 && score != 10
    ensures r == ThirdPrize <==> 1 <= score <= 5
  {
    if score == 0 then NoPrize
    else if score == 10 then FirstPrize
    else if score > 5 then SecondPrize
    else ThirdPrize
  }
}

=== FILE: tile_map.dfy ===
/** The game's tile map, reduced to what the rules read and write on each layer. */
module TileMap {
  import opened Grid
  import opened PlantRules

  /**
   * The occupied cells of the Fences layer, the plants on the Plants layer and the
   * rabbit positions on the Pests layer.
   */
  datatype Board = Board(fences: set<Pos>, plants: seq<Plant>, rabbits: seq<Pos>)

  /** The map as it is built when play starts: every layer empty. */
  const EmptyBoard: Board := Board({}, [], [])
}

=== FILE: turn_structure.dfy ===
/** The turn state machine: the phases of a round and the update that moves between them. */
module TurnStructure {
  import opened Wrappers
  import opened Input

  datatype TurnState = Idle | RoundSetup | StartOfRound | PlayerTurn | PestTurn | EndOfRound | RoundCleanup

  /** The turn state the game registers on start-up. */
  const InitialTurn: TurnState := Idle

  /** The outer phases, passed through on the next update whatever the input. */
  predicate IsAutomatic(s: TurnState) {
    s == Idle || s == RoundSetup || s == StartOfRound
  }

  /** The two phases the player toggles between with Space. */
  predicate IsInner(s: TurnState) {
    s == PlayerTurn || s == PestTurn
  }

  /** The other inner phase. */
  function Toggled(s: TurnState): TurnState
    requires IsInner(s)
  {
    if s == PlayerTurn then PestTurn else PlayerTurn
  }

  /** One update of the turn system, seeing at most one keyboard event. */
  function ProgressTurn(s: TurnState, input: Option<KeyboardInput>): (r: TurnState)
    ensures s == Idle ==> r == RoundSetup
    ensures s == RoundSetup ==> r == StartOfRound
    ensures s == StartOfRound ==> r == PlayerTurn
    ensures s == PlayerTurn ==> IsInner(r) && (r == PestTurn <==> SpacePressed(input))
    ensures s == PestTurn ==> IsInner(r) && (r == PlayerTurn <==> SpacePressed(input))
    ensures !IsAutomatic(s) && !SpacePressed(input) ==> r == s
    ensures s == EndOfRound || s == RoundCleanup ==> r == s
  {
    match s
    case Idle => RoundSetup
    case RoundSetup => StartOfRound
    case StartOfRound => PlayerTurn
    case _ =>
      if SpacePressed(input) then
        match s
        case PlayerTurn => PestTurn
        case PestTurn => PlayerTurn
        case _ => s
      else s
  }

  /** The state after one update per entry of `inputs`, in order. */
  function Run(s: TurnState, inputs: seq<Option<KeyboardInput>>): TurnState
    decreases |inputs|
  {
    if |inputs| == 0 then s else Run(ProgressTurn(s, inputs[0]), inputs[1..])
  }

  /** The number of updates whose keyboard event is a Space press. */
  function SpaceCount(inputs: seq<Option<KeyboardInput>>): (n: nat)
    ensures n <= |inputs|
    decreases |inputs|
  {
    if |inputs| == 0 then 0
    else (if SpacePressed(inputs[0]) then 1 else 0) + SpaceCount(inputs[1..])
  }

  /** Three updates from the initial state reach the player's turn, whatever was typed. */
  lemma StartReachesPlayerTurn(a: Option<KeyboardInput>, b: Option<KeyboardInput>, c: Option<KeyboardInput>)
    ensures InitialTurn == Idle
    ensures Run(InitialTurn, [a, b, c]) == PlayerTurn
  {
    assert [a, b, c][1..] == [b, c];
    assert [b, c][1..] == [c];
    assert [c][1..] == [];
    calc {
      Run(Idle, [a, b, c]);
      Run(RoundSetup, [b, c]);
      Run(StartOfRound, [c]);
      Run(PlayerTurn, []);
    }
  }

  /** Between the player's turn and the pest turn only Space presses count, and each one toggles. */
  lemma {:induction false} InnerRunFollowsParity(s: TurnState, inputs: seq<Option<KeyboardInput>>)
    requires IsInner(s)
    ensures Run(s, inputs) == if SpaceCount(inputs) % 2 == 0 then s else Toggled(s)
    decreases |inputs|
  {
    if |inputs| > 0 {
      InnerRunFollowsParity(ProgressTurn(s, inputs[0]), inputs[1..]);
    }
  }

  /** The end-of-round phases are never entered from any other phase, however long the game runs. */
  lemma {:induction false} NeverEntersRoundEnd(s: TurnState, inputs: seq<Option<KeyboardInput>>)
    requires s != EndOfRound && s != RoundCleanup
    ensures Run(s, inputs) != EndOfRound && Run(s, inputs) != RoundCleanup
    decreases |inputs|
  {
    if |inputs| > 0 {
      NeverEntersRoundEnd(ProgressTurn(s, inputs[0]), inputs[1..]);
    }
  }

  /** Once in an end-of-round phase the turn system never leaves it. */
  lemma {:induction false} RoundEndIsAbsorbing(s: TurnState, inputs: seq<Option<KeyboardInput>>)
    requires s == EndOfRound || s == RoundCleanup
    ensures Run(s, inputs) == s
    decreases |inputs|
  {
    if |inputs| > 0 {
      RoundEndIsAbsorbing(ProgressTurn(s, inputs[0]), inputs[1..]);
    }
  }

  /** From the initial state, after the first three updates the game stays in the inner phases. */
  lemma SettlesIntoInnerPhases(inputs: seq<Option<KeyboardInput>>)
    requires |inputs| >= 3
    ensures IsInner(Run(InitialTurn, inputs))
  {
    var rest := inputs[3..];
    assert inputs == [inputs[0], inputs[1], inputs[2]] + rest;
    RunAppend(InitialTurn, [inputs[0], inputs[1], inputs[2]], rest);
    StartReachesPlayerTurn(inputs[0], inputs[1], inputs[2]);
    InnerRunFollowsParity(PlayerTurn, rest);
  }

  /** Running two input sequences one after the other is running their concatenation. */
  lemma {:induction false} RunAppend(s: TurnState, a: seq<Option<KeyboardInput>>, b: seq<Option<KeyboardInput>>)
    ensures Run(s, a + b) == Run(Run(s, a), b)
    decreases |a|
  {
    if |a| > 0 {
      assert (a + b)[0] == a[0];
      assert (a + b)[1..] == a[1..] + b;
      RunAppend(ProgressTurn(s, a[0]), a[1..], b);
      assert Run(s, a + b) == Run(ProgressTurn(s, a[0]), a[1..] + b);
    } else {
      assert a + b == b;
    }
  }
}

=== FILE: wrappers.dfy ===
/** Option and Result datatypes used across the model. */
module Wrappers {

  /** An optional value: an absent component, a failed lookup, an exhausted draw stream. */
  datatype Option<+T> = None | Some(value: T) {

    /** The wrapped value, or `default` when absent. */
    function GetOr(default: T): T {
      match this
      case Some(v) => v
      case None => default
    }
  }

  /** Either a successful value or the reason the operation could not complete. */
  datatype Result<+R, +E> = Success(value: R) | Failure(error: E)
}
